=== FILE: README.md ===
# Checkers board controller — a Dafny model

This project models the interaction core of a Kivy checkers game: the board
widget's move-selection and turn state machine (`BoardWidget.square_clicked`,
`end_move`, `next_move`, `bot_move`), together with two small pure helpers
from the same file: the square's colour and algebraic label (`Square`), and
the save-file path built on the menu screen (`MenuScreen.screen_transition_button2`).

The rules engine the widget drives (`game`, `player`, `pieces`) is not part of
this model. It is an oracle: `Engine.Rules` is a record of total functions
(`fieldAt`, `nextPositions`, `moveFromPositions`, `hasValidMoves`, `isBot`,
`randomMove`). The engine's state is the history of the mutating calls made
on it (`Engine.Log`, one `Engine.Event` per call to `make_partial_move`,
`find_current_valid_moves`, `end_move`, `toggle_player` and `make_move`), and
every query except `isBot` takes that history. The side to move is kept by the
controller, in lockstep with the engine's toggles. So "exactly one finished move per chain" and
"the turn changes only when a chain ends" become statements about counts of
events in the log.

Files:
- `optional.dfy`: the Option datatype.
- `engine.dfy`: colours, positions, pieces, moves, the event log, the oracle record, and counting and chain functions over the log.
- `controller.dfy`: the tracker (`current_piece`, `jumped_positions`, `next_positions`), the game state, and `SquareClicked`, `Hop`, `EndMove`, `NextMove`, `BotMove`.
- `turns.dfy`: properties spanning several calls. These are the handover counts, the human-against-bot reply, the invariant of every reachable state, game-over finality, and `AdvanceTurn`, the explicit-loop form of the handover.
- `squares.dfy`: square colour parity and square labels, with a parser proved to invert them.
- `save_path.dfy`: the ".csv" normalisation and the "saves/" path.

## Model

| member | source | states |
|---|---|---|
| Controller.SquareClicked | interface.py:100-124 | After game over, on an opponent's piece before a chain starts, and on a square that is neither a piece (with no chain) nor an offered destination, the state is unchanged. A fresh selection sets only the tracker, with destinations asked for the empty chain. A hop that leaves destinations appends exactly the tapped square to the chain and changes neither side nor phase. A hop that leaves none commits one finished move built from the chain and then hands the turn over, with the same three outcomes as `Controller.NextMove`. The engine history only grows. A started chain never changes the selected piece. |
| Controller.Hop | interface.py:112-123 | A hop keeps the selected piece. It extends the engine history with the partial move and the refresh of valid moves for the chain plus the tapped square. If the engine then offers destinations, the chain becomes the old chain plus the tapped square, those destinations are offered, and nothing else changes. If it offers none, the move built from the whole chain is committed and the chain and destinations are cleared. Then the turn passes with one toggle: the side now to move loses if it has no valid moves, keeps control if it is human or a bot without fuel, and otherwise plays the oracle's move. |
| Controller.EndMove | interface.py:126-130 | Ending a move clears the chain but keeps the stale selected piece. It commits the move the engine builds from the piece and its whole chain. Then the turn passes with one toggle: the side now to move loses if it has no valid moves, keeps control if it is human or a bot without fuel, and otherwise plays the oracle's move, after which only toggles and bot moves follow. |
| Controller.NextMove | interface.py:132-140 | A handover always toggles first, and there are three outcomes. If the side now to move has no valid moves, the game is over with that side stuck, after that one toggle. If that side is human, or a bot without fuel, it keeps control after exactly that one toggle. If it is a bot, the oracle's move for it is played and a further handover follows. In every case the tracker is untouched, and only toggles and bot moves are appended, ending with a toggle. |
| Controller.BotMove | interface.py:142-146 | With fuel, a bot reply appends the oracle's move for the side to move, followed by a handover of toggles and bot moves. Without fuel it changes nothing. It leaves the tracker alone. |
| Turns.NextMoveStep | interface.py:132-146 | The handover equals its one-step unfolding. A stuck side loses. A human side, or a bot without fuel, keeps control. A bot plays the oracle's move and the handover repeats with one unit less fuel. |
| Turns.NextMoveCounts | interface.py:132-146 | A handover toggles once plus once per bot reply, makes at most `fuel` bot moves and commits no finished move. |
| Turns.NextMoveSide | interface.py:132-146 | A handover toggles at least once. If the controller's side was the side implied by the engine's toggles before it, it still is after it. |
| Turns.HandoverClosesChain | interface.py:132-146 | A handover ends on a toggle, so the engine has no open capture chain afterwards. |
| Turns.HumanVsBotReturnsControl | interface.py:135-146 | With a human side and a bot side, after the human's move one of two things happens. Either the bot has no moves and the game ends with the bot stuck, or the bot makes exactly one move and control returns to the human, unless the human is then stuck. |
| Turns.FuelIrrelevantWithOneBot | interface.py:139-146 | When at most one side is a bot, any fuel of one or more gives the same outcome, whichever side just moved. |
| Turns.ChainAfterHop | interface.py:113-118 | After a hop the engine's open chain is the old chain plus the tapped square, all made by the selected piece, and no toggle or finished move has been added. |
| Turns.TapCounts | interface.py:112-130 | Given the invariant, a tap toggles the turn if and only if it completes a move. Such a tap commits exactly one finished move and every other tap commits none. The committed move is built from the engine's whole open chain, and that chain was made by the selected piece. |
| Turns.TapKeepsConsistent | interface.py:100-146 | Every tap preserves the invariant. The chain equals the engine's open chain and has pending destinations. Destinations are offered only for a piece of the side to move. The side follows the toggle count. A finished game names the side to move as stuck. |
| Turns.HandoverKeepsConsistent | interface.py:129-146 | A handover from a state with no chain and no destinations, whose side follows the toggles, ends in a state that keeps the invariant. |
| Turns.RunKeepsConsistent | interface.py:100-146 | Over any sequence of taps the invariant holds, and the finished moves committed equal the taps that completed a chain. |
| Controller.Start | interface.py:81-84 | A new game has nothing selected, no destinations, an empty chain and an empty engine history, so no open chain. It has no toggles yet, the first side to move, and is in play. |
| Turns.PlayFromStart | interface.py:77-84 | A game started with an empty tracker keeps the invariant under any taps, and commits exactly one finished move per completed chain. |
| Turns.GameOverIsFinal | interface.py:136-137 | Once a side has been found without moves, no sequence of taps changes the state. |
| Turns.HopMovesOwnPiece | interface.py:112-118 | Given the invariant, every hop moves a piece of the side to move, although the selection is never cleared between turns. |
| Turns.BotRound | interface.py:136-146 | A round in which the side to move is a bot with moves and fuel plays the oracle's move, makes exactly one bot move, and leaves the outcome of the handover unchanged with one unit less fuel. |
| Turns.LastRound | interface.py:133-140 | A round in which the side to move has no moves, is human, or is a bot without fuel ends the handover after one toggle: with that side stuck, or with that side in control. |
| Turns.AdvanceTurn | interface.py:132-146 | The loop form of the handover computes the same state as the recursion between next_move and bot_move. When it stops it has found a loss, a human side, or spent all its fuel on bot moves. |
| Squares.ColorOf | interface.py:27 | A square is black exactly when its row and column have the same parity, and light otherwise. |
| Squares.DiagonalKeepsColor | interface.py:27 | Squares one diagonal step apart have the same colour. |
| Squares.OrthogonalFlipsColor | interface.py:27 | Edge-adjacent squares have different colours. |
| Squares.Decimal | interface.py:71 | The decimal text of a number is non-empty and all digits. It is one character exactly for numbers below 10, and has no leading zero. |
| Squares.DecimalRoundTrip | interface.py:71 | Reading the decimal text back gives the number. |
| Squares.Notation | interface.py:70-71 | A label is a letter A-H followed by digits without a leading zero. It is two characters exactly when the row is below 9. |
| Squares.NotationRoundTrip | interface.py:70-71 | Parsing a square's label gives back its row and column. |
| Squares.NotationInjective | interface.py:70-71 | Different squares have different labels. |
| Squares.NotationOnBoard | interface.py:70-71 | On the 8x8 board a label is the column letter and the digit row+1, and (0,0) is "A1". |
| SavePath.WithExtension | interface.py:238-240 | The file name ends in ".csv" and starts with the typed text. It is either the text itself or the text plus four characters. |
| SavePath.CsvPath | interface.py:241 | The path starts with "saves/", ends with ".csv", and continues after the folder with the normalised name. |
| SavePath.WithExtensionKeepsOnlyCsv | interface.py:239-240 | The name is left unchanged if and only if it already ends with ".csv". |
| SavePath.WithExtensionIdempotent | interface.py:238-241 | Normalising twice gives the same name and the same path as normalising once. |
| SavePath.TypedExtensionIsOptional | interface.py:239-241 | For a name without the extension, typing it with or without ".csv" loads the same file. |

## Left out

- Rendering is left out: `Square.repaint`, `BoardWidget.draw_board` and the Kivy canvas calls. It is presentation only.
- A square's `piece` tag is not modelled as such. The branch test `square.piece != "None"` is modelled as `fieldAt(log, tap).Some?`, because the tags are redrawn from the board after every tap and when the screen is entered.
- The screens are left out: `MenuScreen2`, `GameScreen`, `VictorScreen`, `CheckersApp`, `create_board` and the surrender button. They only navigate the UI.
- `game_over` is not modelled beyond its effect here. It switches to the victor screen and the engine picks the winner, so the model only records the side found without moves (`Over(stuck)`). Taps after that are no-ops, because the board is no longer on screen.
- `InfoWidget` is left out: labels and scores. Its `next_positions = []` at line 203 writes to the box layout, not to the board widget. The board's own `next_positions` is already empty whenever the turn passes.
- Loading and saving CSV files is file I/O. Only the path computation is modelled.
- The rules engine's internals are left out: move generation, captures and king promotion. They are the `Engine.Rules` oracle.
- `get_random_move` is an oracle function of the history and the side. Its randomness is not modelled.
- Piece rank is left out. The controller never looks at it, so `Engine.Piece` carries only an identity and a colour.
- `BoardWidget.in_move` is left out. It is set in the constructor and never read.
- Python truthiness of `current_piece` is not modelled. A selected piece object is taken to be truthy, so `elif self.current_piece` is `current.Some?`.
- Controller.BotMove: the mutual recursion between `next_move` and `bot_move` has no bound in the source when both sides are bots. Here each bot move spends one unit of `fuel`. With no fuel left the bot is left to move. `Turns.FuelIrrelevantWithOneBot` shows that fuel of one or more never matters when only one side is a bot.
- The chain is treated as passed by value. The source hands the one `jumped_positions` list object to `get_next_positions`, `find_current_valid_moves` and `get_move_from_positions` (lines 108, 117-118, 127), and then empties it in place with `.clear()` (line 129). The model's chains are immutable sequences, so it assumes the engine copies the chain rather than keeping the reference. If the engine stored that list, for example inside the move it builds, the committed move's path would be emptied by the clear. That effect is not modelled.
- Whether a side is a bot is taken to be constant for the game. The source reads `game.current_player.is_bot` afresh on every handover (line 139), but `Engine.Rules.isBot` depends on the colour alone, not on the history. `Turns.HumanVsBotReturnsControl` and `Turns.FuelIrrelevantWithOneBot` rely on this.
- The side to move is not read from the engine. The source asks `game.current_player` (lines 101, 136, 139, 143). The model keeps its own side and flips it on every `toggle_player`, which assumes the engine's toggle alternates the two colours. `Turns.NextMoveSide` and the invariant tie this side to the count of toggles, not to the engine's own answer.
- Squares.Notation: requires a column below 8. The source would index past "ABCDEFGH" there, but its board is 8 columns wide.

Three points where the code differs from what a reader might expect, and the model follows the code:
- Committing a move clears only the chain. The selected piece stays as it was, and `Turns.HopMovesOwnPiece` shows this is harmless.
- A tap on a square holding a piece, with no chain started, never reaches the destination branch, even when the piece is the opponent's.
- The winner is not recorded by the controller.

=== FILE: controller.dfy ===
/** The board widget's move-selection and turn state machine: taps on
    squares become partial moves, a chain of partial moves becomes one
    finished move, and a finished move hands the turn to the other side,
    which may lose on the spot or be a bot that replies at once. */
module Controller {
  import opened Optional
  import opened Engine

  /** The widget's selection state: the piece being moved, the squares it
      has landed on this turn, and the squares it may land on next. */
  datatype Tracker = Tracker(current: Option<Piece>, jumped: seq<Pos>, next: seq<Pos>)

  /** Over records the side that was left without a valid move. */
  datatype Phase = Playing | Over(stuck: Color)

  datatype Game = Game(tracker: Tracker, side: Color, log: Log, phase: Phase)

  /** A fresh game: nothing selected, nothing played, `first` to move. */
  function Start(first: Color): (r: Game)
    ensures r.tracker == Tracker(None, [], []) && r.log == [] && ChainOf(r.log) == []
    ensures r.side == first && Toggles(r.log) == 0 && r.phase.Playing?
  {
    Game(Tracker(None, [], []), first, [], Playing)
  }

  /** The tap reaches the selection branch: the square holds a piece and no
      chain has started. Whose piece it is is decided inside the branch. */
  predicate SelectionBranch(rules: Rules, g: Game, tap: Pos) {
    rules.fieldAt(g.log, tap).Some? && g.tracker.jumped == []
  }

  /** The tap lands on one of the offered destinations of a selected piece. */
  predicate HopEnabled(rules: Rules, g: Game, tap: Pos) {
    && g.phase.Playing?
    && !SelectionBranch(rules, g, tap)
    && g.tracker.current.Some?
    && tap in g.tracker.next
  }

  /** The tap completes the move: the engine offers nothing after the hop. */
  predicate Completes(rules: Rules, g: Game, tap: Pos) {
    && HopEnabled(rules, g, tap)
    && rules.nextPositions(HopLog(g, tap), g.tracker.current.value, g.tracker.jumped + [tap]) == []
  }

  /** The state right after the hop to `tap`, before a completed chain is
      committed. */
  function Hopped(rules: Rules, g: Game, tap: Pos): Game
    requires g.tracker.current.Some?
  {
    var chain := g.tracker.jumped + [tap];
    g.(log := HopLog(g, tap),
       tracker := Tracker(g.tracker.current, chain,
                          rules.nextPositions(HopLog(g, tap), g.tracker.current.value, chain)))
  }

  /** The state right after `end_move` has committed the chain as one move,
      before the turn passes. */
  function Committed(rules: Rules, g: Game): Game
    requires g.tracker.current.Some?
  {
    var piece := g.tracker.current.value;
    g.(log := g.log + [MoveEnded(piece, rules.moveFromPositions(g.log, piece, g.tracker.jumped))],
       tracker := g.tracker.(jumped := []))
  }

  /** The engine history right after the hop to `tap`. */
  function HopLog(g: Game, tap: Pos): Log
    requires g.tracker.current.Some?
  {
    var piece := g.tracker.current.value;
    g.log + [PartialMove(piece, tap), ValidMovesRefreshed(piece, g.tracker.jumped + [tap])]
  }

  /** Only toggles and bot moves were appended to `before`. */
  predicate TurnSuffix(before: Log, after: Log) {
    && |before| < |after|
    && after[..|before|] == before
    && after[|before|] == PlayerToggled
    && after[|after| - 1] == PlayerToggled
    && forall e :: e in after[|before|..] ==> e.PlayerToggled? || e.MoveMade?
  }

  /** One tap on the square `tap`. A tap on a piece while no chain has
      started selects it if it is the mover's; otherwise a tap on an offered
      destination moves the selected piece there; anything else is ignored.
      Once the game is over the board no longer receives taps. `fuel` bounds
      the number of bot replies (see NextMove). */
  function SquareClicked(rules: Rules, g: Game, tap: Pos, fuel: nat): (r: Game)
    // after the game is over, and on any tap that neither selects nor hops, nothing changes
    ensures g.phase.Over? ==> r == g
    ensures (g.phase.Playing? && SelectionBranch(rules, g, tap)
             && rules.fieldAt(g.log, tap).value.color != g.side) ==> r == g
    ensures g.phase.Playing? && !SelectionBranch(rules, g, tap) && !HopEnabled(rules, g, tap) ==> r == g
    // a fresh selection only changes the tracker, asking for moves with the empty chain
    ensures (g.phase.Playing? && SelectionBranch(rules, g, tap)
             && rules.fieldAt(g.log, tap).value.color == g.side) ==>
              r == g.(tracker := Tracker(rules.fieldAt(g.log, tap), [],
                                         rules.nextPositions(g.log, rules.fieldAt(g.log, tap).value, [])))
    // a hop that leaves destinations extends the chain by exactly the tapped square
    ensures HopEnabled(rules, g, tap) && !Completes(rules, g, tap) ==>
              && r.side == g.side && r.phase == g.phase && r.log == HopLog(g, tap)
              && r.tracker == Tracker(g.tracker.current, g.tracker.jumped + [tap],
                                      rules.nextPositions(r.log, g.tracker.current.value, g.tracker.jumped + [tap]))
    // a hop that leaves none commits one move built from the whole chain and passes the turn
    ensures Completes(rules, g, tap) ==>
              && r.tracker == Tracker(g.tracker.current, [], [])
              && TurnSuffix(HopLog(g, tap) + [MoveEnded(g.tracker.current.value,
                                                        rules.moveFromPositions(HopLog(g, tap), g.tracker.current.value,
                                                                                g.tracker.jumped + [tap]))],
                            r.log)
              && HandsOver(rules, Committed(rules, Hopped(rules, g, tap)), fuel, r)
    // the engine's history only grows, and a started chain keeps its piece
    ensures |g.log| <= |r.log| && r.log[..|g.log|] == g.log
    ensures g.tracker.jumped != [] ==> r.tracker.current == g.tracker.current
  {
    if g.phase.Over? then g
    else if SelectionBranch(rules, g, tap) then
      var piece := rules.fieldAt(g.log, tap).value;
      if piece.color == g.side then
        g.(tracker := Tracker(Some(piece), g.tracker.jumped,
                              rules.nextPositions(g.log, piece, g.tracker.jumped)))
      else g
    else if g.tracker.current.Some? && tap in g.tracker.next then Hop(rules, g, tap, fuel)
    else g
  }

  /** The selected piece lands on `tap`: the engine makes the partial move,
      the square joins the chain, and the next destinations are asked for
      the longer chain. With none left the move is over. */
  function Hop(rules: Rules, g: Game, tap: Pos, fuel: nat): (r: Game)
    requires g.tracker.current.Some?
    // with destinations left, the chain grows by exactly `tap` and they are offered next
    ensures rules.nextPositions(HopLog(g, tap), g.tracker.current.value, g.tracker.jumped + [tap]) != [] ==>
              r == g.(log := HopLog(g, tap),
                      tracker := Tracker(g.tracker.current, g.tracker.jumped + [tap],
                                         rules.nextPositions(HopLog(g, tap), g.tracker.current.value,
                                                             g.tracker.jumped + [tap])))
    // with none left, the whole chain is committed and the turn passes
    ensures rules.nextPositions(HopLog(g, tap), g.tracker.current.value, g.tracker.jumped + [tap]) == [] ==>
              && r.tracker == Tracker(g.tracker.current, [], [])
              && TurnSuffix(HopLog(g, tap) + [MoveEnded(g.tracker.current.value,
                                                        rules.moveFromPositions(HopLog(g, tap), g.tracker.current.value,
                                                                                g.tracker.jumped + [tap]))],
                            r.log)
              && HandsOver(rules, Committed(rules, Hopped(rules, g, tap)), fuel, r)
    ensures r.tracker.current == g.tracker.current
    ensures |HopLog(g, tap)| <= |r.log| && r.log[..|HopLog(g, tap)|] == HopLog(g, tap)
  {
    var h := Hopped(rules, g, tap);
    if h.tracker.next == [] then EndMove(rules, h, fuel) else h
  }

  /** The chain is finished: the engine commits it as one move built from
      the whole chain, the chain is cleared and the turn passes. The
      selected piece is deliberately left in place (it is never reset). */
  function EndMove(rules: Rules, g: Game, fuel: nat): (r: Game)
    requires g.tracker.current.Some?
    ensures r.tracker == g.tracker.(jumped := [])
    ensures TurnSuffix(g.log + [MoveEnded(g.tracker.current.value,
                                          rules.moveFromPositions(g.log, g.tracker.current.value, g.tracker.jumped))],
                       r.log)
    // and then the turn passes
    ensures HandsOver(rules, Committed(rules, g), fuel, r)
  {
    NextMove(rules, Committed(rules, g), fuel)
  }

  /** The state right after `toggle_player`: the other side is to move. */
  function Toggled(g: Game): (h: Game)
    ensures h.side != g.side && h.log == g.log + [PlayerToggled]
  {
    g.(side := Opponent(g.side), log := g.log + [PlayerToggled])
  }

  /** What passing the turn from `g` yields: the side that comes to move
      loses when it has no valid move; it keeps control after exactly one
      toggle when it is human or a bot out of fuel; and otherwise, as a bot,
      it plays the oracle's move, after which only toggles and bot moves
      follow. */
  predicate HandsOver(rules: Rules, g: Game, fuel: nat, r: Game) {
    var h := Toggled(g);
    if !rules.hasValidMoves(h.log, h.side) then r == h.(phase := Over(h.side))
    else if !rules.isBot(h.side) || fuel == 0 then r == h
    else TurnSuffix(h.log + [MoveMade(rules.randomMove(h.log, h.side))], r.log)
  }

  /** The turn passes to the other side. If that side has no valid move the
      game is over; if it is a bot it replies at once. */
  function NextMove(rules: Rules, g: Game, fuel: nat): (r: Game)
    ensures HandsOver(rules, g, fuel, r)
    ensures r.tracker == g.tracker
    ensures TurnSuffix(g.log, r.log)
    ensures r.phase == g.phase || (r.phase == Over(r.side) && !rules.hasValidMoves(r.log, r.side))
    decreases fuel, 1
  {
    var h := Toggled(g);
    if !rules.hasValidMoves(h.log, h.side) then h.(phase := Over(h.side))
    else if rules.isBot(h.side) then BotMove(rules, h, fuel)
    else h
  }

  /** The bot to move plays the move the oracle picks and the turn passes
      again. Every bot move spends one unit of fuel; without fuel the bot
      is left to move. */
  function BotMove(rules: Rules, g: Game, fuel: nat): (r: Game)
    ensures r.tracker == g.tracker
    ensures fuel == 0 ==> r == g
    ensures fuel >= 1 ==> TurnSuffix(g.log + [MoveMade(rules.randomMove(g.log, g.side))], r.log)
    ensures r.phase == g.phase || (r.phase == Over(r.side) && !rules.hasValidMoves(r.log, r.side))
    decreases fuel, 0
  {
    if fuel == 0 then g
    else NextMove(rules, g.(log := g.log + [MoveMade(rules.randomMove(g.log, g.side))]), fuel - 1)
  }
}

=== FILE: engine.dfy ===
/** The rules engine the board widget drives (board, players, pieces), seen
    only through the calls the widget makes.

    The engine's internals are not part of this model. Its state is taken
    to be the history of the mutating calls made on it (`Log`), and every
    answer it gives, except whether a side is played by the bot, is taken
    to be a function of that history and of the position it was started
    from, which the oracle functions close over. The bot's random choice is
    no exception: the oracle fixes it. Whether a side is a bot is fixed for
    the whole game. Each mutating call is one `Event` appended to the log. */
module Engine {
  import opened Optional

  datatype Color = White | Black

  function Opponent(c: Color): (o: Color)
    ensures o != c
  {
    if c == White then Black else White
  }

  /** A board coordinate. */
  datatype Pos = Pos(row: nat, column: nat)

  /** An opaque piece handle; the controller only looks at its colour. */
  datatype Piece = Piece(id: nat, color: Color)

  /** A finished move as the engine builds it: where the piece started and
      the squares it landed on, in order. */
  datatype Move = Move(start: Pos, path: seq<Pos>)

  /** One mutating call on the engine. */
  datatype Event =
    | PartialMove(piece: Piece, to: Pos)               // game.make_partial_move
    | ValidMovesRefreshed(piece: Piece, chain: seq<Pos>) // player.find_current_valid_moves
    | MoveEnded(piece: Piece, move: Move)              // game.end_move
    | PlayerToggled                                    // game.toggle_player
    | MoveMade(move: Move)                             // game.make_move (bot moves)

  type Log = seq<Event>

  /** The queries the controller makes, as total functions. All but `isBot`
      take the history; `isBot` depends on the colour alone. `fieldAt` is
      None for an empty field; `hasValidMoves` is whether the side's
      `valid_moves` list is non-empty; `randomMove` stands for the bot's
      random choice, fixed here by the oracle. */
  datatype Rules = Rules(
    fieldAt: (Log, Pos) -> Option<Piece>,
    nextPositions: (Log, Piece, seq<Pos>) -> seq<Pos>,
    moveFromPositions: (Log, Piece, seq<Pos>) -> Move,
    hasValidMoves: (Log, Color) -> bool,
    isBot: Color -> bool,
    randomMove: (Log, Color) -> Move)

  predicate IsToggle(e: Event) { e.PlayerToggled? }
  predicate IsEnded(e: Event) { e.MoveEnded? }
  predicate IsBotMove(e: Event) { e.MoveMade? }

  /** How many events of the log satisfy `f`. */
  function Count(log: Log, f: Event -> bool): nat
    decreases |log|
  {
    if log == [] then 0
    else Count(log[..|log| - 1], f) + (if f(log[|log| - 1]) then 1 else 0)
  }

  lemma {:induction false} CountAppend(a: Log, b: Log, f: Event -> bool)
    ensures Count(a + b, f) == Count(a, f) + Count(b, f)
    decreases |b|
  {
    if b == [] {
      assert a + b == a;
    } else {
      var b' := b[..|b| - 1];
      assert (a + b)[..|a + b| - 1] == a + b';
      CountAppend(a, b', f);
    }
  }

  function Toggles(log: Log): nat { Count(log, IsToggle) }
  function EndedMoves(log: Log): nat { Count(log, IsEnded) }
  function BotMoves(log: Log): nat { Count(log, IsBotMove) }

  /** The side to move after `n` toggles, starting from `first`: each
      toggle hands the turn to the opponent. */
  function SideAfter(first: Color, n: nat): Color {
    if n == 0 then first else Opponent(SideAfter(first, n - 1))
  }

  /** The capture chain the engine has seen so far this turn: the targets of
      the partial moves since the last event that is not part of a chain. */
  function ChainOf(log: Log): seq<Pos>
    decreases |log|
  {
    if log == [] then []
    else
      match log[|log| - 1]
      case PartialMove(_, to) => ChainOf(log[..|log| - 1]) + [to]
      case ValidMovesRefreshed(_, _) => ChainOf(log[..|log| - 1])
      case _ => []
  }

  /** Every partial move of the current chain was made with piece `p`. */
  predicate ChainBy(log: Log, p: Piece)
    decreases |log|
  {
    if log == [] then true
    else
      match log[|log| - 1]
      case PartialMove(q, _) => q == p && ChainBy(log[..|log| - 1], p)
      case ValidMovesRefreshed(_, _) => ChainBy(log[..|log| - 1], p)
      case _ => true
  }

  /** A log with no chain in progress is a chain by any piece. */
  lemma {:induction false} EmptyChainByAny(log: Log, p: Piece)
    requires ChainOf(log) == []
    ensures ChainBy(log, p)
    decreases |log|
  {
    if log != [] && log[|log| - 1].ValidMovesRefreshed? {
      EmptyChainByAny(log[..|log| - 1], p);
    }
  }
}

=== FILE: optional.dfy ===
/** A value that may be absent: no selected piece, an empty board field, or
    text that is not a square label. */
module Optional {

  datatype Option<+T> = None | Some(value: T)

}

=== FILE: save_path.dfy ===
/** The path a saved game is loaded from: the text typed on the menu screen,
    given a ".csv" extension when it lacks one, under the "saves/" folder. */
module SavePath {

  const Extension: string := ".csv"
  const Folder: string := "saves/"

  /** Python's `str.endswith`. */
  predicate EndsWith(s: string, suffix: string) {
    |suffix| <= |s| && s[|s| - |suffix|..] == suffix
  }

  predicate StartsWith(s: string, prefix: string) {
    |prefix| <= |s| && s[..|prefix|] == prefix
  }

  /** The file name: the typed text, extended only when needed. */
  function WithExtension(name: string): (r: string)
    ensures EndsWith(r, Extension)
    ensures StartsWith(r, name)
    ensures |r| == |name| || |r| == |name| + |Extension|
  {
    if EndsWith(name, Extension) then name else name + Extension
  }

  /** The CSV path the loader is pointed at. */
  function CsvPath(text: string): (r: string)
    ensures StartsWith(r, Folder) && EndsWith(r, Extension)
    ensures r[|Folder|..] == WithExtension(text)
  {
    Folder + WithExtension(text)
  }

  /** The extension is added exactly when it is missing. */
  lemma WithExtensionKeepsOnlyCsv(name: string)
    ensures WithExtension(name) == name <==> EndsWith(name, Extension)
  {
  }

  /** Normalising a name that is already normalised changes nothing, so the
      same path is produced whether or not the user typed ".csv". */
  lemma WithExtensionIdempotent(name: string)
    ensures WithExtension(WithExtension(name)) == WithExtension(name)
    ensures CsvPath(WithExtension(name)) == CsvPath(name)
  {
  }

  /** Typing "game" and typing "game.csv" load the same file. */
  lemma TypedExtensionIsOptional(name: string)
    requires !EndsWith(name, Extension)
    ensures CsvPath(name + Extension) == CsvPath(name)
  {
  }
}

=== FILE: squares.dfy ===
/** The pure parts of a board square: its colour, fixed by the parity of
    row + column, and its name in algebraic notation ("A1" .. "H8"), which
    is the text the square's button shows. */
module Squares {
  import opened Optional

  datatype SquareColor = Black | Light

  /** Column letters; a column index outside 0..7 has no letter. */
  const Files: string := "ABCDEFGH"

  /** The colour a square is given when it is created. Rows and columns
      come from `range(size)`, so they are never negative and Python's
      `%` agrees with Dafny's. */
  function ColorOf(row: nat, column: nat): (c: SquareColor)
    ensures c == Black <==> row % 2 == column % 2
  {
    if (row + column) % 2 == 0 then Black else Light
  }

  /** A diagonal step, the only way a checkers piece moves. */
  predicate Diagonal(row: nat, column: nat, row': nat, column': nat) {
    (row' == row + 1 || row == row' + 1) && (column' == column + 1 || column == column' + 1)
  }

  /** A step to an edge-adjacent square. */
  predicate Orthogonal(row: nat, column: nat, row': nat, column': nat) {
    || (row' == row && (column' == column + 1 || column == column' + 1))
    || (column' == column && (row' == row + 1 || row == row' + 1))
  }

  /** Pieces travel diagonally, so they never leave the colour they start on. */
  lemma DiagonalKeepsColor(row: nat, column: nat, row': nat, column': nat)
    requires Diagonal(row, column, row', column')
    ensures ColorOf(row', column') == ColorOf(row, column)
  {
  }

  /** Edge-adjacent squares always differ in colour: the board is chequered. */
  lemma OrthogonalFlipsColor(row: nat, column: nat, row': nat, column': nat)
    requires Orthogonal(row, column, row', column')
    ensures ColorOf(row', column') != ColorOf(row, column)
  {
  }

  /** The character of a decimal digit. */
  function Digit(d: nat): (c: char)
    requires d < 10
    ensures '0' <= c <= '9'
    ensures c as int - '0' as int == d
  {
    ('0' as int + d) as char
  }

  predicate IsDigits(s: string) {
    forall i :: 0 <= i < |s| ==> '0' <= s[i] <= '9'
  }

  /** Python's `str(n)` for a natural number: decimal, no leading zeros. */
  function Decimal(n: nat): (s: string)
    ensures |s| >= 1 && IsDigits(s)
    ensures |s| == 1 <==> n < 10
    ensures s[0] == '0' ==> n == 0
    decreases n
  {
    if n < 10 then [Digit(n)] else Decimal(n / 10) + [Digit(n % 10)]
  }

  /** The value of a string of decimal digits (the empty string reads as 0). */
  function ParseDecimal(s: string): nat
    requires IsDigits(s)
    decreases |s|
  {
    if s == [] then 0
    else ParseDecimal(s[..|s| - 1]) * 10 + (s[|s| - 1] as int - '0' as int)
  }

  lemma {:induction false} DecimalRoundTrip(n: nat)
    ensures ParseDecimal(Decimal(n)) == n
    decreases n
  {
    if n >= 10 {
      var s := Decimal(n);
      assert s[..|s| - 1] == Decimal(n / 10);
      DecimalRoundTrip(n / 10);
    }
  }

  /** The label of the square at (row, column): the column's letter followed
      by the 1-based row number. A column of 8 or more would index past the
      letter string, which the source does not guard against. */
  function Notation(row: nat, column: nat): (s: string)
    requires column < |Files|
    ensures |s| >= 2 && 'A' <= s[0] <= 'H' && IsDigits(s[1..]) && s[1] != '0'
    ensures |s| == 2 <==> row < 9
  {
    [Files[column]] + Decimal(row + 1)
  }

  /** Reads a square label back; None when the text is not a label. */
  function ParseNotation(s: string): (r: Option<(nat, nat)>)
    ensures r.Some? ==> r.value.1 < |Files|
  {
    if |s| >= 2 && 'A' <= s[0] <= 'H' && IsDigits(s[1..]) && ParseDecimal(s[1..]) >= 1 then
      Some((ParseDecimal(s[1..]) - 1, s[0] as int - 'A' as int))
    else
      None
  }

  /** Every label names the square it was made from. */
  lemma NotationRoundTrip(row: nat, column: nat)
    requires column < |Files|
    ensures ParseNotation(Notation(row, column)) == Some((row, column))
  {
    var s := Notation(row, column);
    assert s[1..] == Decimal(row + 1);
    DecimalRoundTrip(row + 1);
    assert Files[column] as int - 'A' as int == column;
  }

  /** Distinct squares get distinct labels. */
  lemma NotationInjective(row: nat, column: nat, row': nat, column': nat)
    requires column < |Files| && column' < |Files|
    requires Notation(row, column) == Notation(row', column')
    ensures row == row' && column == column'
  {
    NotationRoundTrip(row, column);
    NotationRoundTrip(row', column');
  }

  /** On the 8x8 board every label is a letter and one digit; (0, 0) is "A1". */
  lemma NotationOnBoard(row: nat, column: nat)
    requires row < 8 && column < 8
    ensures Notation(row, column) == [Files[column], Digit(row + 1)]
    ensures Notation(0, 0) == "A1"
  {
  }
}

=== FILE: turns.dfy ===
/** Properties of the turn state machine that span several calls: what one
    turn handover adds to the engine's history, how bot replies chain, the
    invariant every reachable state keeps, and the explicit-loop form of the
    handover. */
module Turns {
  import opened Engine
  import opened Controller

  /** Appending one event adds one to exactly the counters that match it. */
  lemma CountsAppendOne(log: Log, e: Event)
    ensures Toggles(log + [e]) == Toggles(log) + (if e.PlayerToggled? then 1 else 0)
    ensures EndedMoves(log + [e]) == EndedMoves(log) + (if e.MoveEnded? then 1 else 0)
    ensures BotMoves(log + [e]) == BotMoves(log) + (if e.MoveMade? then 1 else 0)
  {
  }

  /** One handover toggles the side once, plus once after every bot reply;
      no bot reply is made beyond the fuel; and no finished move is
      committed. */
  lemma {:induction false} NextMoveCounts(rules: Rules, g: Game, fuel: nat)
    ensures var r := NextMove(rules, g, fuel);
      && Toggles(r.log) == Toggles(g.log) + 1 + (BotMoves(r.log) - BotMoves(g.log))
      && BotMoves(g.log) <= BotMoves(r.log) <= BotMoves(g.log) + fuel
      && EndedMoves(r.log) == EndedMoves(g.log)
    decreases fuel
  {
    var h := Toggled(g);
    CountsAppendOne(g.log, PlayerToggled);
    if rules.hasValidMoves(h.log, h.side) && rules.isBot(h.side) && fuel > 0 {
      var b := BotReplied(rules, h);
      BotRound(rules, g, fuel);
      CountsAppendOne(h.log, b.log[|b.log| - 1]);
      NextMoveCounts(rules, b, fuel - 1);
    } else {
      LastRound(rules, g, fuel);
    }
  }

  /** A handover ends on a toggle, so no capture chain is left open. */
  lemma HandoverClosesChain(rules: Rules, g: Game, fuel: nat)
    ensures ChainOf(NextMove(rules, g, fuel).log) == []
  {
  }

  /** The side the controller holds stays in step with the engine's toggles
      across a handover, which toggles at least once. */
  lemma {:induction false} NextMoveSide(rules: Rules, g: Game, fuel: nat, first: Color)
    requires g.side == SideAfter(first, Toggles(g.log))
    ensures var r := NextMove(rules, g, fuel);
      && Toggles(g.log) < Toggles(r.log)
      && r.side == SideAfter(first, Toggles(r.log))
    decreases fuel
  {
    var h := Toggled(g);
    if rules.hasValidMoves(h.log, h.side) && rules.isBot(h.side) && fuel > 0 {
      BotRound(rules, g, fuel);
      BotRoundSide(rules, g, first);
      NextMoveSide(rules, BotReplied(rules, h), fuel - 1, first);
    } else {
      LastRoundSide(rules, g, fuel, first);
    }
  }

  /** A toggle followed by a bot move keeps the side in step with the toggles. */
  lemma BotRoundSide(rules: Rules, g: Game, first: Color)
    requires g.side == SideAfter(first, Toggles(g.log))
    ensures var b := BotReplied(rules, Toggled(g));
      && Toggles(g.log) < Toggles(b.log)
      && b.side == SideAfter(first, Toggles(b.log))
  {
    var h := Toggled(g);
    CountsAppendOne(g.log, PlayerToggled);
    CountsAppendOne(h.log, MoveMade(rules.randomMove(h.log, h.side)));
  }

  /** The last round of a handover keeps the side in step with the toggles. */
  lemma LastRoundSide(rules: Rules, g: Game, fuel: nat, first: Color)
    requires g.side == SideAfter(first, Toggles(g.log))
    requires !(rules.hasValidMoves(Toggled(g).log, Toggled(g).side) && rules.isBot(Toggled(g).side) && fuel >= 1)
    ensures var r := NextMove(rules, g, fuel);
      && Toggles(g.log) < Toggles(r.log)
      && r.side == SideAfter(first, Toggles(r.log))
  {
    CountsAppendOne(g.log, PlayerToggled);
    LastRound(rules, g, fuel);
  }

  /** One step of the handover, with the bot's reply unfolded into the next
      handover: the three branches of next_move and bot_move. */
  lemma NextMoveStep(rules: Rules, g: Game, fuel: nat)
    ensures var h := Toggled(g);
            NextMove(rules, g, fuel) ==
              if !rules.hasValidMoves(h.log, h.side) then h.(phase := Over(h.side))
              else if !rules.isBot(h.side) || fuel == 0 then h
              else NextMove(rules, h.(log := h.log + [MoveMade(rules.randomMove(h.log, h.side))]), fuel - 1)
  {
    var h := Toggled(g);
    if rules.hasValidMoves(h.log, h.side) && rules.isBot(h.side) && fuel >= 1 {
      assert NextMove(rules, g, fuel) == BotMove(rules, h, fuel);
    }
  }

  /** Human against bot: after the human's move the bot, if it can move at
      all, makes exactly one move and control comes back to the human. */
  lemma HumanVsBotReturnsControl(rules: Rules, g: Game, fuel: nat)
    requires !rules.isBot(g.side) && rules.isBot(Opponent(g.side)) && fuel >= 1
    ensures var r := NextMove(rules, g, fuel);
            var bot := Opponent(g.side);
            var t := g.log + [PlayerToggled];
            if !rules.hasValidMoves(t, bot) then
              r == g.(side := bot, log := t, phase := Over(bot))
            else
              var u := t + [MoveMade(rules.randomMove(t, bot)), PlayerToggled];
              && r.log == u
              && r.side == g.side
              && r.tracker == g.tracker
              && r.phase == (if rules.hasValidMoves(u, g.side) then g.phase else Over(g.side))
  {
    var bot := Opponent(g.side);
    var t := g.log + [PlayerToggled];
    if rules.hasValidMoves(t, bot) {
      var b := g.(side := bot, log := t + [MoveMade(rules.randomMove(t, bot))]);
      assert NextMove(rules, g, fuel) == NextMove(rules, b, fuel - 1);
    }
  }

  /** With at most one bot side, any fuel of at least one gives the same
      outcome: the fuel bound never cuts a real game short. */
  lemma FuelIrrelevantWithOneBot(rules: Rules, g: Game, fuel: nat, fuel': nat)
    requires (!rules.isBot(g.side) || !rules.isBot(Opponent(g.side))) && fuel >= 1 && fuel' >= 1
    ensures NextMove(rules, g, fuel) == NextMove(rules, g, fuel')
  {
    var bot := Opponent(g.side);
    var t := g.log + [PlayerToggled];
    if rules.hasValidMoves(t, bot) && rules.isBot(bot) {
      var b := g.(side := bot, log := t + [MoveMade(rules.randomMove(t, bot))]);
      assert NextMove(rules, g, fuel) == NextMove(rules, b, fuel - 1);
      assert NextMove(rules, g, fuel') == NextMove(rules, b, fuel' - 1);
    }
  }

  /** The invariant of every state reachable from `Start(first)`:
      the tracker's chain is the engine's open chain, made by the selected
      piece, and it always has somewhere to go; destinations are only ever
      offered for a piece of the side to move (so the selection left over
      from the previous turn is harmless); the side is in step with the
      engine's toggles; and a finished game records the side to move as
      the one without moves. */
  predicate Consistent(g: Game, first: Color) {
    && g.tracker.jumped == ChainOf(g.log)
    && (g.tracker.jumped != [] ==>
          g.tracker.current.Some? && ChainBy(g.log, g.tracker.current.value) && g.tracker.next != [])
    && (g.tracker.next != [] ==> g.tracker.current.Some? && g.tracker.current.value.color == g.side)
    && g.side == SideAfter(first, Toggles(g.log))
    && (g.phase.Over? ==> g.phase.stuck == g.side && g.tracker.jumped == [])
  }

  lemma ChainAfterHop(g: Game, tap: Pos)
    requires g.tracker.current.Some?
    requires g.tracker.jumped == ChainOf(g.log)
    requires g.tracker.jumped != [] ==> ChainBy(g.log, g.tracker.current.value)
    ensures ChainOf(HopLog(g, tap)) == g.tracker.jumped + [tap]
    ensures ChainBy(HopLog(g, tap), g.tracker.current.value)
    ensures Toggles(HopLog(g, tap)) == Toggles(g.log)
    ensures EndedMoves(HopLog(g, tap)) == EndedMoves(g.log)
  {
    var p := g.tracker.current.value;
    var l1 := g.log + [PartialMove(p, tap)];
    assert HopLog(g, tap) == l1 + [ValidMovesRefreshed(p, g.tracker.jumped + [tap])];
    assert l1[..|l1| - 1] == g.log;
    if g.tracker.jumped == [] {
      EmptyChainByAny(g.log, p);
    }
    CountsAppendOne(g.log, PartialMove(p, tap));
    CountsAppendOne(l1, ValidMovesRefreshed(p, g.tracker.jumped + [tap]));
  }

  /** What one tap does to the engine's history, given the invariant: the
      turn is toggled exactly when the tap completes a move, exactly one
      finished move is committed then and none otherwise, and the move
      committed is built from the whole open chain of the selected piece. */
  lemma TapCounts(rules: Rules, g: Game, tap: Pos, fuel: nat, first: Color)
    requires Consistent(g, first)
    ensures var r := SquareClicked(rules, g, tap, fuel);
      && (Toggles(r.log) > Toggles(g.log) <==> Completes(rules, g, tap))
      && EndedMoves(r.log) == EndedMoves(g.log) + (if Completes(rules, g, tap) then 1 else 0)
    ensures Completes(rules, g, tap) ==>
              var p := g.tracker.current.value;
              var l := HopLog(g, tap);
              && ChainOf(l) == g.tracker.jumped + [tap]
              && ChainBy(l, p)
              && SquareClicked(rules, g, tap, fuel).log[|l|] == MoveEnded(p, rules.moveFromPositions(l, p, ChainOf(l)))
  {
    var r := SquareClicked(rules, g, tap, fuel);
    if HopEnabled(rules, g, tap) {
      ChainAfterHop(g, tap);
      if Completes(rules, g, tap) {
        var p := g.tracker.current.value;
        var l := HopLog(g, tap);
        var e := l + [MoveEnded(p, rules.moveFromPositions(l, p, g.tracker.jumped + [tap]))];
        CountsAppendOne(l, e[|e| - 1]);
        var h := g.(log := l, tracker := Tracker(g.tracker.current, g.tracker.jumped + [tap], []));
        assert r == NextMove(rules, h.(log := e, tracker := h.tracker.(jumped := [])), fuel);
        NextMoveCounts(rules, h.(log := e, tracker := h.tracker.(jumped := [])), fuel);
        assert r.log[..|e|] == e;
        assert r.log[|l|] == e[|l|];
      }
    }
  }

  lemma CompletedTapIsHandover(rules: Rules, g: Game, tap: Pos, fuel: nat)
    requires Completes(rules, g, tap)
    ensures SquareClicked(rules, g, tap, fuel) == NextMove(rules, Committed(rules, Hopped(rules, g, tap)), fuel)
  {
  }

  /** A handover from a state with no chain and no destinations, whose side
      follows the toggles, ends in a state that keeps the invariant. */
  lemma HandoverKeepsConsistent(rules: Rules, h: Game, fuel: nat, first: Color)
    requires h.tracker.jumped == [] && h.tracker.next == []
    requires h.side == SideAfter(first, Toggles(h.log)) && h.phase.Playing?
    ensures Consistent(NextMove(rules, h, fuel), first)
  {
    var r := NextMove(rules, h, fuel);
    NextMoveSide(rules, h, fuel, first);
    HandoverClosesChain(rules, h, fuel);
  }

  lemma CompletedTapKeepsConsistent(rules: Rules, g: Game, tap: Pos, fuel: nat, first: Color)
    requires Consistent(g, first) && Completes(rules, g, tap)
    ensures Consistent(SquareClicked(rules, g, tap, fuel), first)
  {
    ChainAfterHop(g, tap);
    var h := Committed(rules, Hopped(rules, g, tap));
    var l := HopLog(g, tap);
    assert h.log == l + [h.log[|h.log| - 1]];
    CountsAppendOne(l, h.log[|h.log| - 1]);
    assert Toggles(h.log) == Toggles(g.log);
    CompletedTapIsHandover(rules, g, tap, fuel);
    HandoverKeepsConsistent(rules, h, fuel, first);
  }

  /** Every tap keeps the invariant. */
  lemma TapKeepsConsistent(rules: Rules, g: Game, tap: Pos, fuel: nat, first: Color)
    requires Consistent(g, first)
    ensures Consistent(SquareClicked(rules, g, tap, fuel), first)
  {
    if Completes(rules, g, tap) {
      CompletedTapKeepsConsistent(rules, g, tap, fuel, first);
    } else if HopEnabled(rules, g, tap) {
      ChainAfterHop(g, tap);
    } else if g.phase.Playing? && SelectionBranch(rules, g, tap) {
      assert g.tracker.jumped == [];
    }
  }

  /** The state after a sequence of taps. */
  function Run(rules: Rules, g: Game, taps: seq<Pos>, fuel: nat): Game
    decreases |taps|
  {
    if taps == [] then g else Run(rules, SquareClicked(rules, g, taps[0], fuel), taps[1..], fuel)
  }

  /** How many taps of the sequence complete a move. */
  function Completions(rules: Rules, g: Game, taps: seq<Pos>, fuel: nat): nat
    decreases |taps|
  {
    if taps == [] then 0
    else
      (if Completes(rules, g, taps[0]) then 1 else 0)
      + Completions(rules, SquareClicked(rules, g, taps[0], fuel), taps[1..], fuel)
  }

  /** Whatever is tapped, every state reached from a consistent one is
      consistent, and exactly one finished move is committed per completed
      chain. */
  lemma {:induction false} RunKeepsConsistent(rules: Rules, g: Game, taps: seq<Pos>, fuel: nat, first: Color)
    requires Consistent(g, first)
    ensures Consistent(Run(rules, g, taps, fuel), first)
    ensures EndedMoves(Run(rules, g, taps, fuel).log) == EndedMoves(g.log) + Completions(rules, g, taps, fuel)
    decreases |taps|
  {
    if taps != [] {
      TapKeepsConsistent(rules, g, taps[0], fuel, first);
      TapCounts(rules, g, taps[0], fuel, first);
      RunKeepsConsistent(rules, SquareClicked(rules, g, taps[0], fuel), taps[1..], fuel, first);
    }
  }

  /** A game played from the start, by any taps, satisfies the invariant. */
  lemma PlayFromStart(rules: Rules, first: Color, taps: seq<Pos>, fuel: nat)
    ensures Consistent(Run(rules, Start(first), taps, fuel), first)
    ensures EndedMoves(Run(rules, Start(first), taps, fuel).log) == Completions(rules, Start(first), taps, fuel)
  {
    RunKeepsConsistent(rules, Start(first), taps, fuel, first);
  }

  /** Once the game is over no sequence of taps changes anything. */
  lemma {:induction false} GameOverIsFinal(rules: Rules, g: Game, taps: seq<Pos>, fuel: nat)
    requires g.phase.Over?
    ensures Run(rules, g, taps, fuel) == g
    decreases |taps|
  {
    if taps != [] {
      GameOverIsFinal(rules, g, taps[1..], fuel);
    }
  }

  /** Given the invariant, a hop always moves a piece of the side to move,
      even though the selection is never cleared between turns. */
  lemma HopMovesOwnPiece(rules: Rules, g: Game, tap: Pos, first: Color)
    requires Consistent(g, first) && HopEnabled(rules, g, tap)
    ensures g.tracker.current.value.color == g.side
  {
  }

  /** The state after the bot to move has played the oracle's move. */
  function BotReplied(rules: Rules, h: Game): Game {
    h.(log := h.log + [MoveMade(rules.randomMove(h.log, h.side))])
  }

  /** A round of the handover loop that plays a bot move leaves the outcome
      unchanged and spends its unit of fuel on exactly one bot move. */
  lemma BotRound(rules: Rules, g: Game, fuel: nat)
    requires rules.hasValidMoves(Toggled(g).log, Toggled(g).side) && rules.isBot(Toggled(g).side) && fuel >= 1
    ensures NextMove(rules, BotReplied(rules, Toggled(g)), fuel - 1) == NextMove(rules, g, fuel)
    ensures BotMoves(BotReplied(rules, Toggled(g)).log) == BotMoves(g.log) + 1
  {
    var h := Toggled(g);
    NextMoveStep(rules, g, fuel);
    CountsAppendOne(g.log, PlayerToggled);
    CountsAppendOne(h.log, MoveMade(rules.randomMove(h.log, h.side)));
  }

  /** The round that ends the handover loop: one toggle, then either a loss
      or the side keeps control. */
  lemma LastRound(rules: Rules, g: Game, fuel: nat)
    requires !(rules.hasValidMoves(Toggled(g).log, Toggled(g).side) && rules.isBot(Toggled(g).side) && fuel >= 1)
    ensures NextMove(rules, g, fuel) ==
              if rules.hasValidMoves(Toggled(g).log, Toggled(g).side) then Toggled(g)
              else Toggled(g).(phase := Over(Toggled(g).side))
    ensures BotMoves(Toggled(g).log) == BotMoves(g.log)
  {
    CountsAppendOne(g.log, PlayerToggled);
  }

  /** The turn handover written as a loop instead of the mutual recursion
      between next_move and bot_move: each round toggles the side, stops on
      a loss or a human side, and otherwise plays one bot move. */
  method AdvanceTurn(rules: Rules, g: Game, fuel: nat) returns (r: Game)
    ensures r == NextMove(rules, g, fuel)
    ensures r.tracker == g.tracker
    ensures r.phase.Over? || !rules.isBot(r.side) || BotMoves(r.log) == BotMoves(g.log) + fuel
  {
    var cur, f := g, fuel;
    while rules.hasValidMoves(Toggled(cur).log, Toggled(cur).side) && rules.isBot(Toggled(cur).side) && f >= 1
      invariant NextMove(rules, cur, f) == NextMove(rules, g, fuel)
      invariant BotMoves(cur.log) + f == BotMoves(g.log) + fuel
      decreases f
    {
      BotRound(rules, cur, f);
      cur, f := BotReplied(rules, Toggled(cur)), f - 1;
    }
    LastRound(rules, cur, f);
    var h := Toggled(cur);
    r := if rules.hasValidMoves(h.log, h.side) then h else h.(phase := Over(h.side));
  }
}
